=== FILE: README.md ===
# Shopping cart store and floating cart totals, in Dafny

This project models the cart of a small React Native shop: the cart store
hook (`src/hooks/cart.tsx`) and the two figures the floating cart widget
derives from it (`src/components/FloatingCart/index.tsx`).

- `cart.dfy`, module `Cart`: a cart line is a `Product` record (id, title,
  image URL, price in whole cents, `nat` quantity). The three mutations
  `addToCart`, `increment` and `decrement` become pure functions from the
  product list the hook captured to an `Update`. An `Update` holds the list
  handed to `setProducts` and an optional `Write(key, snapshot)`. The write
  stands for the `AsyncStorage.setItem(key, JSON.stringify(snapshot))` call
  the mutation makes. `Find` is `Array.prototype.find` on the id and
  `Replace` is the `products.map(...)` each mutation uses.
- `floating_cart.dfy`, module `FloatingCart`: `CartTotal` (the widget's
  `cartTotal`, before currency formatting) and `TotalItems` (its
  `totalItensInCart`). Both are written the way the widget computes them.
  The total filters out zero quantities, maps each line to quantity times
  price, then calls `reduce` with no initial value. The count maps each line
  to its quantity and reduces that; the widget's filter of undefined
  quantities drops nothing here. Both are guarded by an empty-list check, and
  each is proved equal to a plain recursive `Sum`.
- `cart_totals.dfy`, module `CartTotals`: how the mutations move those
  figures. It also proves that, with unique ids, decrement undoes increment,
  and increment undoes a decrement of a positive quantity.

Two behaviours of the code are reproduced as written, not corrected:

- `addToCart` only counts up a product that is already in the list. It
  never inserts one. When it does write, the snapshot it persists is the
  list from *before* the update (`cart.tsx:61`). `AddToCartPersistsStaleList`
  proves that this snapshot always differs from the committed list.
- `decrement` on a line whose quantity is already 0 rewrites the quantity
  to 0. It then writes under `"@products"` (`StrayKey`) instead of
  `"products"` (`ProductsKey`), the key the load on mount reads
  (`cart.tsx:129`).

Both look unintended: everywhere else, a mutation persists the list it
commits, under the one key. The model keeps them because they are what the
code does.

Each mutation finds the first line with the id and then rewrites *every*
line with that id into a copy of that first line with the new quantity. This is what
the code does, and the contracts of `Increment`, `Decrement` and `CountUp`
state it for every list. They also state the simpler per-line effect for
carts with unique ids (`UniqueIds`), which is the cart's intended
invariant. `MutationsKeepIdsDistinct` proves that all three mutations keep
that invariant.

## Model

| member | source | states |
|---|---|---|
| `Cart.Find` | src/hooks/cart.tsx:45-47 | the lookup finds nothing exactly when no line has the id; otherwise it returns a line of the list carrying that id, and when ids are unique it is the only such line |
| `Cart.FindFirst` | src/hooks/cart.tsx:70-72 | the lookup returns the first line carrying the id, even when later lines repeat it |
| `Cart.FindUnique` | src/hooks/cart.tsx:96-98 | with unique ids, looking up any line's id returns that very line |
| `Cart.Replace` | src/hooks/cart.tsx:75-82 | the mapped list has the same length; each line whose id matches becomes the replacement and every other line is kept; a replacement with the same id keeps the sequence of ids |
| `Cart.ReplaceOne` | src/hooks/cart.tsx:101-108 | with unique ids, mapping by one line's id changes that line alone |
| `Cart.CountUp` | src/hooks/cart.tsx:51-58 | the map shared by addToCart and increment keeps the ids and every line with another id; each line with the found id becomes a full copy of the found line (title and image included) with quantity plus one |
| `Cart.Increment` | src/hooks/cart.tsx:68-92 | the ids are kept; an absent id leaves the list unchanged with no write; a present id is persisted under `"products"` with exactly the committed list; lines with other ids are unchanged; for every list, each line with the id becomes the first match with quantity plus one; with unique ids the matching line's quantity rises by exactly one and nothing else in it changes |
| `Cart.Decrement` | src/hooks/cart.tsx:94-135 | the ids are kept; an absent id means no change and no write; a present id always writes the committed list, under `"products"` when the first matching line's quantity is positive and under `"@products"` when it is 0, for every list; lines with other ids are unchanged; for every list, each line with the id becomes the first match with quantity minus one, or 0 when it was 0; with unique ids a positive quantity drops by exactly one, while a zero quantity leaves the list as it was |
| `Cart.AddToCart` | src/hooks/cart.tsx:43-66 | the ids are kept, so nothing is ever inserted; an absent id is a no-op with no write; a present id writes the list as it was before the update, under `"products"` |
| `Cart.AddToCartCommitsIncrement` | src/hooks/cart.tsx:49-59 | addToCart commits the same list that increment of the item's id commits |
| `Cart.AddToCartPersistsStaleList` | src/hooks/cart.tsx:50-61 | when the item is present, the persisted snapshot differs from the list committed to state |
| `Cart.MutationsKeepIdsDistinct` | src/hooks/cart.tsx:51-58 | a cart with unique ids still has unique ids after increment, decrement or addToCart |
| `FloatingCart.FoldLeftIsSum` | src/components/FloatingCart/index.tsx:41 | folding with `+` from an accumulator gives the accumulator plus the sum |
| `FloatingCart.Reduce` | src/components/FloatingCart/index.tsx:55 | a `reduce` with no initial value over a non-empty list equals its sum |
| `FloatingCart.InCart` | src/components/FloatingCart/index.tsx:27-31 | every line of the filtered list is a line of the input with a non-zero quantity, every such input line appears in it, and it is no longer than the input |
| `FloatingCart.InCartMultiset` | src/components/FloatingCart/index.tsx:27-31 | the filtered list holds each line with a non-zero quantity exactly as many times as the input does, and no line with quantity 0 |
| `FloatingCart.LineTotals` | src/components/FloatingCart/index.tsx:37-39 | one entry per line, equal to that line's quantity times its price |
| `FloatingCart.Quantities` | src/components/FloatingCart/index.tsx:47-49 | one entry per line, equal to that line's quantity; no quantity is undefined, so the filter drops nothing |
| `FloatingCart.InCartKeepsSubtotal` | src/components/FloatingCart/index.tsx:27-41 | dropping the zero-quantity lines does not change the sum of quantity times price |
| `FloatingCart.CartTotal` | src/components/FloatingCart/index.tsx:26-44 | the total is the sum of quantity times price over the lines with a non-zero quantity (0 when there are none), and equally the sum over all lines |
| `FloatingCart.CartTotalOfEmptyCart` | src/components/FloatingCart/index.tsx:27-35 | a cart in which every quantity is zero, the empty cart included, totals 0 |
| `FloatingCart.TotalItems` | src/components/FloatingCart/index.tsx:46-58 | the item count is the sum of all quantities (0 for the empty list) |
| `FloatingCart.TotalItemsZero` | src/components/FloatingCart/index.tsx:46-58 | the item count is never negative, and it is 0 exactly when every quantity is 0 |
| `FloatingCart.TwoLineExample` | src/components/FloatingCart/index.tsx:26-58 | a line at price 10 with quantity 2 and a line at price 5 with quantity 0 give a total of 20 and a count of 2 |
| `CartTotals.IncrementAt` | src/hooks/cart.tsx:74-84 | with unique ids, increment commits the list with that one line's quantity raised by one |
| `CartTotals.DecrementAt` | src/hooks/cart.tsx:100-110 | with unique ids and a positive quantity, decrement commits the list with that one line's quantity lowered by one |
| `CartTotals.DecrementRestores` | src/hooks/cart.tsx:100-110 | with unique ids, decrement of a line just counted up gives back the list before it |
| `CartTotals.IncrementRestores` | src/hooks/cart.tsx:74-84 | with unique ids, increment of a line just counted down gives back the list before it |
| `CartTotals.DecrementUndoesIncrement` | src/hooks/cart.tsx:68-114 | with unique ids, decrementing after incrementing the same line gives back the original list |
| `CartTotals.IncrementUndoesDecrement` | src/hooks/cart.tsx:68-114 | with unique ids and a positive quantity, incrementing after decrementing the same line gives back the original list |
| `CartTotals.CountAfterUpdate` | src/components/FloatingCart/index.tsx:46-58 | for any list, replacing one line moves the count by its quantity difference |
| `CartTotals.TotalAfterUpdate` | src/components/FloatingCart/index.tsx:26-44 | for any list, replacing one line moves the total by the difference in quantity times price |
| `CartTotals.TotalsAfterShift` | src/components/FloatingCart/index.tsx:26-58 | moving one line's quantity by `delta` moves the count by `delta` and the total by `delta` times that line's price |
| `CartTotals.IncrementRaisesTotals` | src/components/FloatingCart/index.tsx:26-58 | after increment on a present id, the count rises by 1 and the total rises by that line's price |
| `CartTotals.DecrementLowersTotals` | src/components/FloatingCart/index.tsx:26-58 | after decrement on a line with positive quantity, the count falls by 1 and the total falls by that line's price |
| `CartTotals.DecrementAtZeroKeepsTotals` | src/hooks/cart.tsx:117-131 | after decrement on a line at zero, the count and the total are unchanged |

## Left out

- React wiring: the context, `useState`, `useCallback`, `useMemo` and the provider. The `useCart` outside-a-provider error (`cart.tsx:145-153`) belongs to this wiring.
- Storage I/O and async sequencing: persistence appears only as the returned `Write` record, and nothing is read back or stored.
- Loading the cart on mount (`cart.tsx:31-41`): it depends on `JSON.parse` and on storage, and neither is modelled.
- Stale closures: two calls made before a re-render both start from the same captured list. The model passes that list explicitly and does not model the event loop.
- `formatValue` is not part of this model. `CartTotal` is the number before it is formatted.
- Navigation to the cart screen, icons, styling and rendering.
- JavaScript numbers: prices are exact integers (cents), and quantities are `nat`. The `quantity + 1 || 1` fallback only matters for an undefined, NaN or -1 quantity, none of which a `nat` can be. The same goes for the filter that drops undefined quantities before counting.

=== FILE: cart.dfy ===
/**
 The cart state container of src/hooks/cart.tsx, as pure functions.

 Each mutation (`addToCart`, `increment`, `decrement`) takes the product list
 the hook captured, and returns the list it hands to `setProducts` together
 with the storage write it issues, if any. A write is a record of the storage
 key and the product list that is serialised under it; nothing is stored.
 */
module Cart {

  datatype Option<T> = None | Some(value: T)

  /** One cart line. Prices are whole cents; a quantity is never negative. */
  datatype Product = Product(id: string, title: string, imageUrl: string, price: int, quantity: nat)

  /** The argument of `addToCart`: a product without its quantity. */
  datatype Item = Item(id: string, title: string, imageUrl: string, price: int)

  /** One `setItem(key, JSON.stringify(snapshot))` call. */
  datatype Write = Write(key: string, snapshot: seq<Product>)

  /** What a mutation commits to state, and what it persists. */
  datatype Update = Update(products: seq<Product>, write: Option<Write>)

  /** The key every other write uses, and the one the load on mount reads. */
  const ProductsKey: string := "products"

  /** The key the decrement-at-zero branch writes under instead. */
  const StrayKey: string := "@products"

  /** Some line carries the id. */
  predicate Contains(ps: seq<Product>, id: string)
  {
    exists i :: 0 <= i < |ps| && ps[i].id == id
  }

  /** No id occurs twice: the cart holds one line per product. */
  predicate UniqueIds(ps: seq<Product>)
  {
    forall i, j :: 0 <= i < j < |ps| ==> ps[i].id != ps[j].id
  }

  /** The two lists carry the same sequence of ids. */
  predicate SameIds(a: seq<Product>, b: seq<Product>)
  {
    |a| == |b| && forall i :: 0 <= i < |a| ==> a[i].id == b[i].id
  }

  /** `products.find(p => p.id === id)`. */
  function Find(ps: seq<Product>, id: string): (r: Option<Product>)
    ensures r.None? <==> !Contains(ps, id)
    ensures r.Some? ==> r.value.id == id && r.value in ps
    ensures r.Some? && UniqueIds(ps) ==>
      forall i :: 0 <= i < |ps| && ps[i].id == id ==> ps[i] == r.value
  {
    if |ps| == 0 then None
    else if ps[0].id == id then Some(ps[0])
    else Find(ps[1..], id)
  }

  /** Find returns the first line with the id, whether or not ids repeat. */
  lemma {:induction false} FindFirst(ps: seq<Product>, i: nat)
    requires i < |ps|
    requires forall j :: 0 <= j < i ==> ps[j].id != ps[i].id
    ensures Find(ps, ps[i].id) == Some(ps[i])
  {
    if i > 0 {
      assert ps[0].id != ps[i].id;
      assert ps[1..][i - 1] == ps[i];
      FindFirst(ps[1..], i - 1);
    }
  }

  /** With unique ids, the lookup of any line's id returns that line. */
  lemma FindUnique(ps: seq<Product>, i: nat)
    requires i < |ps| && UniqueIds(ps)
    ensures Find(ps, ps[i].id) == Some(ps[i])
  {
    FindFirst(ps, i);
  }

  /** `products.map(p => p.id === id ? replacement : p)`. */
  function Replace(ps: seq<Product>, id: string, replacement: Product): (r: seq<Product>)
    ensures |r| == |ps|
    ensures forall i :: 0 <= i < |ps| ==> r[i] == (if ps[i].id == id then replacement else ps[i])
    ensures replacement.id == id ==> SameIds(r, ps)
  {
    if |ps| == 0 then []
    else [if ps[0].id == id then replacement else ps[0]] + Replace(ps[1..], id, replacement)
  }

  /** With distinct ids, replacing by a line's id touches that line alone. */
  lemma ReplaceOne(ps: seq<Product>, i: nat, replacement: Product)
    requires i < |ps| && UniqueIds(ps)
    ensures Replace(ps, ps[i].id, replacement) == ps[i := replacement]
  {
  }

  /**
   The map shared by addToCart and increment: every line carrying `existing`'s
   id becomes `existing` counted up by one.
   */
  function CountUp(ps: seq<Product>, existing: Product): (r: seq<Product>)
    ensures SameIds(r, ps)
    ensures forall i :: 0 <= i < |ps| && ps[i].id != existing.id ==> r[i] == ps[i]
    ensures forall i :: 0 <= i < |ps| && ps[i].id == existing.id ==>
      r[i] == existing.(quantity := existing.quantity + 1)
  {
    Replace(ps, existing.id, existing.(quantity := existing.quantity + 1))
  }

  /** `increment(id)`: add one to the matching line and persist the new list. */
  function Increment(ps: seq<Product>, id: string): (u: Update)
    ensures SameIds(u.products, ps)
    ensures !Contains(ps, id) ==> u == Update(ps, None)
    ensures Contains(ps, id) ==> u.write == Some(Write(ProductsKey, u.products))
    ensures forall i :: 0 <= i < |ps| && ps[i].id != id ==> u.products[i] == ps[i]
    ensures Contains(ps, id) ==>
      forall i :: 0 <= i < |ps| && ps[i].id == id ==>
        u.products[i] == Find(ps, id).value.(quantity := Find(ps, id).value.quantity + 1)
    ensures UniqueIds(ps) ==>
      forall i :: 0 <= i < |ps| && ps[i].id == id ==>
        u.products[i] == ps[i].(quantity := ps[i].quantity + 1)
  {
    match Find(ps, id)
    case None => Update(ps, None)
    case Some(existing) =>
      var next := CountUp(ps, existing);
      Update(next, Some(Write(ProductsKey, next)))
  }

  /**
   `decrement(id)`: take one from a line whose quantity is positive and persist
   under ProductsKey; a line already at zero is rewritten to zero and the list
   is persisted under StrayKey.
   */
  function Decrement(ps: seq<Product>, id: string): (u: Update)
    ensures SameIds(u.products, ps)
    ensures !Contains(ps, id) ==> u == Update(ps, None)
    ensures Contains(ps, id) ==> u.write.Some? && u.write.value.snapshot == u.products
    ensures Contains(ps, id) ==>
      u.write.value.key == (if Find(ps, id).value.quantity > 0 then ProductsKey else StrayKey)
    ensures forall i :: 0 <= i < |ps| && ps[i].id != id ==> u.products[i] == ps[i]
    ensures Contains(ps, id) ==>
      forall i :: 0 <= i < |ps| && ps[i].id == id ==>
        u.products[i] == Find(ps, id).value.(quantity :=
          if Find(ps, id).value.quantity > 0 then Find(ps, id).value.quantity - 1 else 0)
    ensures UniqueIds(ps) ==>
      forall i :: 0 <= i < |ps| && ps[i].id == id && ps[i].quantity > 0 ==>
        u.products[i] == ps[i].(quantity := ps[i].quantity - 1)
    ensures UniqueIds(ps) ==>
      forall i :: 0 <= i < |ps| && ps[i].id == id && ps[i].quantity == 0 ==>
        u.products == ps
  {
    match Find(ps, id)
    case None => Update(ps, None)
    case Some(existing) =>
      if existing.quantity != 0 then
        var next := Replace(ps, existing.id, existing.(quantity := existing.quantity - 1));
        Update(next, Some(Write(ProductsKey, next)))
      else
        var next := Replace(ps, existing.id, existing.(quantity := 0));
        Update(next, Some(Write(StrayKey, next)))
  }

  /**
   `addToCart(item)`: only an item already in the list is counted up; the
   write persists the list as it was before the update.
   */
  function AddToCart(ps: seq<Product>, item: Item): (u: Update)
    ensures SameIds(u.products, ps)
    ensures !Contains(ps, item.id) ==> u == Update(ps, None)
    ensures Contains(ps, item.id) ==> u.write == Some(Write(ProductsKey, ps))
  {
    match Find(ps, item.id)
    case None => Update(ps, None)
    case Some(existing) =>
      Update(CountUp(ps, existing), Some(Write(ProductsKey, ps)))
  }

  /** addToCart commits exactly the list increment would commit. */
  lemma AddToCartCommitsIncrement(ps: seq<Product>, item: Item)
    ensures AddToCart(ps, item).products == Increment(ps, item.id).products
  {
  }

  /** Every mutation keeps the ids, so a cart with distinct ids keeps them distinct. */
  lemma MutationsKeepIdsDistinct(ps: seq<Product>, id: string, item: Item)
    requires UniqueIds(ps)
    ensures UniqueIds(Increment(ps, id).products)
    ensures UniqueIds(Decrement(ps, id).products)
    ensures UniqueIds(AddToCart(ps, item).products)
  {
  }

  /** When addToCart does write, the snapshot lags the committed list. */
  lemma AddToCartPersistsStaleList(ps: seq<Product>, item: Item)
    requires Contains(ps, item.id)
    ensures AddToCart(ps, item).write.Some?
    ensures AddToCart(ps, item).write.value.snapshot != AddToCart(ps, item).products
  {
    var existing := Find(ps, item.id).value;
    var k :| 0 <= k < |ps| && ps[k] == existing;
    assert AddToCart(ps, item).products[k].quantity == ps[k].quantity + 1;
  }
}

=== FILE: cart_totals.dfy ===
/**
 How the cart mutations move the figures the floating cart shows. The
 statements about a mutation assume the cart holds one line per id, as a cart
 built only by these operations from distinct lines does; the statements about
 replacing one line hold for every list.
 */
module CartTotals {
  import opened Cart
  import opened FloatingCart

  /** With distinct ids, increment changes only the line at `i`, counting it up by one. */
  lemma IncrementAt(ps: seq<Product>, i: nat)
    requires i < |ps| && UniqueIds(ps)
    ensures Increment(ps, ps[i].id).products == ps[i := ps[i].(quantity := ps[i].quantity + 1)]
  {
    var e := ps[i];
    assert Increment(ps, e.id).products == CountUp(ps, e) by {
      FindUnique(ps, i);
    }
    ReplaceOne(ps, i, e.(quantity := e.quantity + 1));
  }

  /** With distinct ids, decrement of a positive line changes only that line, counting it down by one. */
  lemma DecrementAt(ps: seq<Product>, i: nat)
    requires i < |ps| && UniqueIds(ps) && ps[i].quantity > 0
    ensures Decrement(ps, ps[i].id).products == ps[i := ps[i].(quantity := ps[i].quantity - 1)]
  {
    var e := ps[i];
    assert Decrement(ps, e.id).products == Replace(ps, e.id, e.(quantity := e.quantity - 1)) by {
      FindUnique(ps, i);
    }
    ReplaceOne(ps, i, e.(quantity := e.quantity - 1));
  }

  /** Decrement takes a line just counted up back to where it was. */
  lemma DecrementRestores(ps: seq<Product>, i: nat)
    requires i < |ps| && UniqueIds(ps)
    ensures Decrement(ps[i := ps[i].(quantity := ps[i].quantity + 1)], ps[i].id).products == ps
  {
    var after := ps[i := ps[i].(quantity := ps[i].quantity + 1)];
    assert UniqueIds(after) by {
      assert SameIds(after, ps);
    }
    assert after[i := after[i].(quantity := after[i].quantity - 1)] == ps;
    DecrementAt(after, i);
  }

  /** Increment takes a line just counted down back to where it was. */
  lemma IncrementRestores(ps: seq<Product>, i: nat)
    requires i < |ps| && UniqueIds(ps) && ps[i].quantity > 0
    ensures Increment(ps[i := ps[i].(quantity := ps[i].quantity - 1)], ps[i].id).products == ps
  {
    var after := ps[i := ps[i].(quantity := ps[i].quantity - 1)];
    assert UniqueIds(after) by {
      assert SameIds(after, ps);
    }
    assert after[i := after[i].(quantity := after[i].quantity + 1)] == ps;
    IncrementAt(after, i);
  }

  /** Decrement undoes increment. */
  lemma DecrementUndoesIncrement(ps: seq<Product>, i: nat)
    requires i < |ps| && UniqueIds(ps)
    ensures Decrement(Increment(ps, ps[i].id).products, ps[i].id).products == ps
  {
    IncrementAt(ps, i);
    DecrementRestores(ps, i);
  }

  /** Increment undoes a decrement that took a line down by one. */
  lemma IncrementUndoesDecrement(ps: seq<Product>, i: nat)
    requires i < |ps| && UniqueIds(ps) && ps[i].quantity > 0
    ensures Increment(Decrement(ps, ps[i].id).products, ps[i].id).products == ps
  {
    DecrementAt(ps, i);
    IncrementRestores(ps, i);
  }

  /** Replacing one line moves the count by the difference in its quantity. */
  lemma CountAfterUpdate(ps: seq<Product>, i: nat, p: Product)
    requires i < |ps|
    ensures TotalItems(ps[i := p]) == TotalItems(ps) - ps[i].quantity + p.quantity
  {
    assert Quantities(ps[i := p]) == Quantities(ps)[i := p.quantity];
    SumUpdate(Quantities(ps), i, p.quantity);
  }

  /** Replacing one line moves the total by the difference in what the line costs. */
  lemma TotalAfterUpdate(ps: seq<Product>, i: nat, p: Product)
    requires i < |ps|
    ensures CartTotal(ps[i := p]) == CartTotal(ps) - ps[i].quantity * ps[i].price + p.quantity * p.price
  {
    assert LineTotals(ps[i := p]) == LineTotals(ps)[i := p.quantity * p.price];
    SumUpdate(LineTotals(ps), i, p.quantity * p.price);
  }

  /** Multiplication by the price distributes over the shifted quantity. */
  lemma ShiftedLineTotal(quantity: int, price: int, delta: int)
    ensures (quantity + delta) * price == quantity * price + delta * price
  {
  }

  /** Moving one line's quantity by `delta` moves the count by `delta` and the total by `delta` times its price. */
  lemma TotalsAfterShift(ps: seq<Product>, i: nat, delta: int)
    requires i < |ps| && ps[i].quantity + delta >= 0
    ensures TotalItems(ps[i := ps[i].(quantity := ps[i].quantity + delta)]) == TotalItems(ps) + delta
    ensures CartTotal(ps[i := ps[i].(quantity := ps[i].quantity + delta)]) == CartTotal(ps) + delta * ps[i].price
  {
    CountAfterUpdate(ps, i, ps[i].(quantity := ps[i].quantity + delta));
    TotalAfterUpdate(ps, i, ps[i].(quantity := ps[i].quantity + delta));
    ShiftedLineTotal(ps[i].quantity, ps[i].price, delta);
  }

  /** Increment adds one item and the line's price to the total. */
  lemma IncrementRaisesTotals(ps: seq<Product>, i: nat)
    requires i < |ps| && UniqueIds(ps)
    ensures TotalItems(Increment(ps, ps[i].id).products) == TotalItems(ps) + 1
    ensures CartTotal(Increment(ps, ps[i].id).products) == CartTotal(ps) + ps[i].price
  {
    IncrementAt(ps, i);
    TotalsAfterShift(ps, i, 1);
  }

  /** Decrement of a positive line removes one item and the line's price from the total. */
  lemma DecrementLowersTotals(ps: seq<Product>, i: nat)
    requires i < |ps| && UniqueIds(ps) && ps[i].quantity > 0
    ensures TotalItems(Decrement(ps, ps[i].id).products) == TotalItems(ps) - 1
    ensures CartTotal(Decrement(ps, ps[i].id).products) == CartTotal(ps) - ps[i].price
  {
    DecrementAt(ps, i);
    TotalsAfterShift(ps, i, -1);
  }

  /** Decrement of a line at zero leaves the count and the total as they were. */
  lemma DecrementAtZeroKeepsTotals(ps: seq<Product>, i: nat)
    requires i < |ps| && UniqueIds(ps) && ps[i].quantity == 0
    ensures TotalItems(Decrement(ps, ps[i].id).products) == TotalItems(ps)
    ensures CartTotal(Decrement(ps, ps[i].id).products) == CartTotal(ps)
  {
    assert Decrement(ps, ps[i].id).products == ps;
  }
}

=== FILE: floating_cart.dfy ===
/**
 The two figures the floating cart widget derives from the product list
 (src/components/FloatingCart/index.tsx): the total price and the number of
 items. Each is written the way the widget computes it (the total filters,
 maps, then reduces with no initial value; the count maps the quantities and
 reduces them) and proved equal to a plain sum.
 */
module FloatingCart {
  import opened Cart

  /** The sum of a list of numbers; the reference every fold is compared with. */
  function Sum(xs: seq<int>): int
  {
    if |xs| == 0 then 0 else xs[0] + Sum(xs[1..])
  }

  /** Left fold with `+` from an accumulator. */
  function FoldLeft(acc: int, xs: seq<int>): int
    decreases xs
  {
    if |xs| == 0 then acc else FoldLeft(acc + xs[0], xs[1..])
  }

  /** `xs.reduce((sum, x) => sum + x)`: seeded with the first element, so it needs one. */
  function Reduce(xs: seq<int>): (r: int)
    requires |xs| > 0
    ensures r == Sum(xs)
  {
    FoldLeftIsSum(xs[0], xs[1..]);
    FoldLeft(xs[0], xs[1..])
  }

  lemma {:induction false} FoldLeftIsSum(acc: int, xs: seq<int>)
    ensures FoldLeft(acc, xs) == acc + Sum(xs)
    decreases xs
  {
    if |xs| > 0 {
      FoldLeftIsSum(acc + xs[0], xs[1..]);
    }
  }

  /** Changing one entry changes the sum by the difference. */
  lemma {:induction false} SumUpdate(xs: seq<int>, i: nat, v: int)
    requires i < |xs|
    ensures Sum(xs[i := v]) == Sum(xs) - xs[i] + v
  {
    if i > 0 {
      SumUpdate(xs[1..], i - 1, v);
      assert xs[i := v][1..] == xs[1..][i - 1 := v];
    }
  }

  /** `products.filter(p => p.quantity)`: the lines with a non-zero quantity. */
  function InCart(ps: seq<Product>): (r: seq<Product>)
    ensures |r| <= |ps|
    ensures forall p :: p in r ==> p in ps && p.quantity > 0
    ensures forall p :: p in ps && p.quantity > 0 ==> p in r
  {
    if |ps| == 0 then []
    else if ps[0].quantity != 0 then [ps[0]] + InCart(ps[1..])
    else InCart(ps[1..])
  }

  /** The filter keeps every line with a non-zero quantity as often as it occurs, and no other line. */
  lemma {:induction false} InCartMultiset(ps: seq<Product>)
    ensures forall p :: multiset(InCart(ps))[p] == if p.quantity > 0 then multiset(ps)[p] else 0
  {
    if |ps| > 0 {
      InCartMultiset(ps[1..]);
      assert ps == [ps[0]] + ps[1..];
      assert multiset(ps) == multiset([ps[0]]) + multiset(ps[1..]);
    }
  }

  /** `map(p => p.quantity * p.price)`: what each line costs. */
  function LineTotals(ps: seq<Product>): (r: seq<int>)
    ensures |r| == |ps|
    ensures forall i :: 0 <= i < |ps| ==> r[i] == ps[i].quantity * ps[i].price
  {
    if |ps| == 0 then [] else [ps[0].quantity * ps[0].price] + LineTotals(ps[1..])
  }

  /** `map(p => p.quantity)`: every quantity, in order. */
  function Quantities(ps: seq<Product>): (r: seq<int>)
    ensures |r| == |ps|
    ensures forall i :: 0 <= i < |ps| ==> r[i] == ps[i].quantity
  {
    if |ps| == 0 then [] else [ps[0].quantity] + Quantities(ps[1..])
  }

  /**
   `cartTotal`, before formatting: the sum of quantity times price over the
   lines with a non-zero quantity, which is also the sum over every line.
   */
  function CartTotal(ps: seq<Product>): (total: int)
    ensures total == Sum(LineTotals(InCart(ps)))
    ensures total == Sum(LineTotals(ps))
  {
    var inCart := InCart(ps);
    InCartKeepsSubtotal(ps);
    if |inCart| == 0 then 0 else Reduce(LineTotals(inCart))
  }

  /**
   `totalItensInCart`. The widget drops undefined quantities before summing;
   every quantity here is a number, so that filter keeps the whole list.
   */
  function TotalItems(ps: seq<Product>): (count: int)
    ensures count == Sum(Quantities(ps))
  {
    var quantities := Quantities(ps);
    if |quantities| == 0 then 0 else Reduce(quantities)
  }

  /** Leaving out the zero-quantity lines does not change what the lines cost. */
  lemma {:induction false} InCartKeepsSubtotal(ps: seq<Product>)
    ensures Sum(LineTotals(InCart(ps))) == Sum(LineTotals(ps))
  {
    if |ps| > 0 {
      InCartKeepsSubtotal(ps[1..]);
      assert LineTotals(ps)[1..] == LineTotals(ps[1..]);
      if ps[0].quantity != 0 {
        assert LineTotals([ps[0]] + InCart(ps[1..]))[1..] == LineTotals(InCart(ps[1..]));
      }
    }
  }

  /** A cart in which every quantity is zero, the empty one included, totals zero. */
  lemma CartTotalOfEmptyCart(ps: seq<Product>)
    requires forall i :: 0 <= i < |ps| ==> ps[i].quantity == 0
    ensures CartTotal(ps) == 0
  {
    if |InCart(ps)| > 0 {
      assert InCart(ps)[0] in InCart(ps);
    }
  }

  /** The quantities sum to a non-negative number, zero exactly when every quantity is zero. */
  lemma {:induction false} SumOfQuantities(ps: seq<Product>)
    ensures Sum(Quantities(ps)) >= 0
    ensures Sum(Quantities(ps)) == 0 <==> forall i :: 0 <= i < |ps| ==> ps[i].quantity == 0
  {
    if |ps| > 0 {
      SumOfQuantities(ps[1..]);
      assert Quantities(ps)[1..] == Quantities(ps[1..]);
      assert forall i :: 1 <= i < |ps| ==> ps[i] == ps[1..][i - 1];
    }
  }

  /** The count is never negative, and is zero exactly when every quantity is zero. */
  lemma TotalItemsZero(ps: seq<Product>)
    ensures TotalItems(ps) >= 0
    ensures TotalItems(ps) == 0 <==> forall i :: 0 <= i < |ps| ==> ps[i].quantity == 0
  {
    SumOfQuantities(ps);
  }

  /** Two lines, ten cents times two and five cents times zero: total 20, two items. */
  lemma TwoLineExample()
    ensures var ps := [Product("1", "", "", 10, 2), Product("2", "", "", 5, 0)];
      CartTotal(ps) == 20 && TotalItems(ps) == 2
  {
    var ps := [Product("1", "", "", 10, 2), Product("2", "", "", 5, 0)];
    assert InCart(ps) == [ps[0]];
  }
}
